=== FILE: README.md ===
# Bible tracker: reading-log store, submission, deletion and session model

This project is a Dafny model of the decision logic in a small reading tracker.
Users sign in through a messaging-platform mini-app SDK (LIFF). They record
which chapters of a book they have read, and their score is shown on a
leaderboard. The app has no backend of its own. Its pages call a hosted
Postgres store (Supabase) directly. The model keeps the three sequential state
machines that carry the app's invariants and replaces every awaited call with
an atomic step of an abstract store.

- `Store` (store.dfy) holds the `reading_logs` table. Each row is keyed by
  `(user_id, book_name, chapter)`, and that key is unique. `Valid` states the
  store's own guarantees: the unique key, and ids drawn from a sequence.
  `Store` also holds the `profiles` table (score and onboarding column). Every
  awaited call takes a `Fault`: `None` means the call was served, and
  `Some(code)` means it failed with that code and changed nothing. A plain
  multi-row insert is atomic. A unique conflict answers `23505` and leaves the
  table unchanged. The ignore-duplicates upsert adds exactly the missing keys.
  `SyncScore` is the recount: count the user's rows, then overwrite the score
  with that count. Two reads are plain lookups. `ReadScore` yields
  the stored score when the call is served and the row exists, and nothing
  otherwise. `ReadOnboarding` is truthy exactly when the call is served, the
  row exists and its onboarding column is true.
- `RecordPage` (record.dfy) covers the selection state and `handleSubmit`. The
  selection state is a book index plus a chapter list, changed by book
  selection, chapter toggles, the clear button and the back arrow.
  `handleSubmit` runs three steps in order: a plain insert; on `23505`, a
  fallback upsert that skips duplicates; then the recount.
- `HistoryPage` (history.dfy) covers `handleDelete`, which deletes a row by id,
  lowers the score by one (clamped at zero) and filters the on-screen list.
  `Listed` states what the history query promises: exactly the user's rows,
  newest first.
- `LiffSession` (liff.dfy) covers `initLiff`: the app-id check, the login
  redirect, the mapping from the SDK profile to the app profile, the profile
  upsert, and the onboarding-flag lookup, which consults the store only when
  the local cache is unset. It also covers `completeOnboarding`.
- `Reconcile` (reconcile.dfy) states the score invariant over any sequence of
  submissions and deletions.
- `Seqs` and `Options` are helpers: `Array.prototype.filter`, and
  `null`/`undefined` as `Option`.

Three behaviours of the code worth knowing:

- Submission does not remove already-read chapters before writing. It relies
  on the `23505` fallback.
- The success alert reports the selection's length, not the number of rows
  actually created.
- Deletion decrements the score instead of recounting. This is recorded under
  Findings, next to a corrected handler.

## Model

| member | source | states |
|---|---|---|
| `RecordPage.ToggleChapterSpec` | app/record/page.tsx:25-31 | Toggling a selected chapter removes it and keeps every other chapter. On a duplicate-free selection, it cuts out exactly that position and leaves the rest in order. Toggling an unselected chapter appends it at the end. |
| `RecordPage.ToggleChapterNoDuplicates` | app/record/page.tsx:25-31 | A duplicate-free selection stays duplicate-free after a toggle. |
| `RecordPage.ToggleChapterTwice` | app/record/page.tsx:25-31 | Toggling an unselected chapter twice restores the original list exactly. |
| `RecordPage.ChapterGrid` | app/record/page.tsx:164 | The grid offers exactly the chapters 1..n, n of them. |
| `RecordPage.Apply` | app/record/page.tsx:20-31 | Selecting a book and pressing clear (line 155) both leave the selection empty. Back (line 123) unsets the book and keeps the chapters. A chapter press flips that chapter's membership. |
| `RecordPage.ApplyPreservesInv` | app/record/page.tsx:164-167 | Every action the rendered page offers keeps the selection free of duplicates, with every chapter in 1..chapters of the selected book. |
| `RecordPage.ReplayKeepsInv` | app/record/page.tsx:132-177 | The selection invariant holds after any sequence of user actions. |
| `RecordPage.BuildLogs` | app/record/page.tsx:39-43 | There is one record per selected chapter, in the selection's order, each carrying the profile id and the book name. |
| `RecordPage.BuildLogsKeys` | app/record/page.tsx:39-43 | The built records stand for exactly the submitted (user, book, chapter) keys. |
| `RecordPage.WritePhase` | app/record/page.tsx:46-77 | After a successful write, the stored keys are the old keys plus the submitted ones, and no row is removed or changed. It fails exactly when the plain insert fails with a code other than 23505, or when the insert fails with 23505 and the upsert also fails. |
| `RecordPage.WritePhaseResubmit` | app/record/page.tsx:58-73 | Submitting keys that are all stored already leaves the store exactly as it was. |
| `RecordPage.HandleSubmit` | app/record/page.tsx:33-107 | With no profile, no book or an empty selection, nothing changes. A failed write changes no row or score. A save adds exactly the submitted keys and keeps all old rows. When the count and the update are served, the score equals the user's row count. When either fails, or the profile row is missing, no score is written at all (there is no fallback increment). A started submission fails exactly when its write phase (insert, then the 23505 fallback) fails, so with the insert and upsert served it always saves. No profile is added or removed, and only the submitting user's score may change. isSubmitting is false on every path that started. |
| `RecordPage.ResubmitAddsNothing` | app/record/page.tsx:46-91 | When every selected chapter is stored already, a submission adds and changes no row. With the recount served on a store where score == count, it changes nothing at all. |
| `RecordPage.SubmitIdempotent` | app/record/page.tsx:46-91 | A resubmission of the same selection adds no row. When all recounts are served, the store is identical to the one after the first submission. |
| `Store.InsertAll` | app/record/page.tsx:46-49 | A plain multi-row insert adds a row for every key, or adds none and answers 23505 when a key is stored already or repeated within the batch. A served insert raises each user's count by the number of that user's keys in the batch. |
| `Store.UpsertIgnoringDuplicates` | app/record/page.tsx:69-71 | The ignore-duplicates upsert adds the missing keys and keeps every existing row. |
| `Store.InsertMissing` | app/record/page.tsx:69-71 | Skipping conflicts keeps the unique key, and the stored keys become the old keys plus the batch. |
| `Store.InsertMissingPresent` | app/record/page.tsx:69-71 | A batch whose keys are all present leaves the store untouched. |
| `Store.InsertMissingAbsent` | app/record/page.tsx:46-49 | Distinct keys that are all absent each get a row of their own. |
| `Store.InsertMissingAbsentCount` | app/record/page.tsx:46-49 | Inserting distinct, absent keys raises each user's count by the number of that user's keys in the batch. |
| `Store.Append` | app/record/page.tsx:46-49 | A new row under the next id keeps the unique key and adds exactly its key. |
| `Store.AppendCount` | app/record/page.tsx:85-88 | A new row raises its owner's count by one and leaves every other user's count unchanged. |
| `Store.CountQuery` | app/record/page.tsx:85-88 | The exact-count query is answered exactly when it is served. On a store with the unique key, its answer is the number of distinct (book, chapter) keys the user has recorded. |
| `Store.CountIsDistinctKeys` | app/record/page.tsx:85-88 | Under the unique key, the number of a user's rows equals the number of distinct keys the user owns. |
| `Store.SyncScore` | app/record/page.tsx:85-96 | When the count and the update are served and the profile row exists, the score equals the row count afterwards. Otherwise nothing changes. The user's other columns, other users' rows and all reading logs are never touched. |
| `Store.UpdateScore` | app/record/page.tsx:91 | The score update changes only that user's score, and only when the call is served and the row exists. |
| `Store.DeleteById` | app/history/page.tsx:48-53 | Delete by id succeeds whenever it is served, even for an id that matches no row. It removes only that id. A served delete lowers the count of the deleted row's owner by one and leaves every other user's count unchanged. |
| `Store.DeleteCount` | app/history/page.tsx:48-51 | Deleting a user's row lowers that user's count by one. Deleting an absent id lowers no count. |
| `HistoryPage.HandleDelete` | app/history/page.tsx:43-76 | A declined confirmation and a failed delete change nothing. After a delete, the row is gone and the list is the old list filtered on the id, keeping exactly the other entries. When the score is read and written, it becomes max(0, old - 1), which is never negative. No profile is added or removed, other profiles are untouched, and the user's other columns keep their values. |
| `HistoryPage.DeleteConsistency` | app/history/page.tsx:48-68 | Starting from score == count, the decrement keeps score == count exactly when the deleted id was one of the user's rows, or when the user had no rows. |
| `HistoryPage.DeleteAbsentIdDrifts` | app/history/page.tsx:48-68 | Deleting an absent id still succeeds and still lowers the score, leaving the score one below the row count. |
| `HistoryPage.ListedWithoutListed` | app/history/page.tsx:71 | Removing a listed row from the store and from the list keeps the list equal to the user's rows, newest first. |
| `HistoryPage.ListedWithoutUnlisted` | app/history/page.tsx:71 | Removing an unlisted id keeps the list exact. |
| `HistoryPage.DeleteKeepsListing` | app/history/page.tsx:26-71 | After a delete, the list still shows exactly the user's rows ordered by created_at descending. A listed id's entry is cut out with the remaining order preserved. An unlisted id leaves the list exactly as it was. |
| `HistoryPage.HandleDeleteRecount` | app/history/page.tsx:55-68 | The corrected delete recounts the score, so when the count and the update are served, score == count afterwards whatever it was before. No profile is added or removed, and only the user's score column may change. |
| `LiffSession.InitLiff` | components/LiffProvider.tsx:47-109 | isInitializing ends false on every path. The flag never goes from true to false. A cached 'true' sets the flag. A non-empty cache is never overwritten, and the remote column is ignored. A newly set flag implies the cache now holds 'true' and the stored column is true. A failed profile upsert leaves the store as it was, and no run changes an existing row's score or onboarding column. Every profile row other than the signed-in user's is unchanged, and at most that user's row is added. |
| `LiffSession.InitLiffMissingId` | components/LiffProvider.tsx:55-58 | A missing or empty app id sets the error message, leaves the profile unset and does not touch the store. |
| `LiffSession.InitLiffSignedOut` | components/LiffProvider.tsx:62-65 | A signed-out user is sent to login, with no profile, no error and no store access. |
| `LiffSession.InitLiffSignedIn` | components/LiffProvider.tsx:67-83 | The app profile has id = userId and display name = displayName. The avatar is pictureUrl, or '' when pictureUrl is missing. A served upsert stores the same identity and keeps the stored score. |
| `LiffSession.InitLiffThrows` | components/LiffProvider.tsx:99-105 | When `liff.init` or `liff.getProfile` throws, the error becomes the thrown Error's message, or the fixed unknown-error text for any other value. The profile stays as it was, the store is not touched and there is no login redirect. |
| `LiffSession.InitLiffRemoteLookup` | components/LiffProvider.tsx:86-97 | With the cache unset, a stored true sets the flag and writes 'true' to the cache. Any other lookup result leaves both unchanged. |
| `Store.UpsertProfile` | components/LiffProvider.tsx:77-83 | The profile upsert overwrites the identity fields and keeps an existing row's score and onboarding column. |
| `LiffSession.CompleteOnboarding` | components/LiffProvider.tsx:114-126 | The cache becomes 'true' and the flag becomes true unconditionally. The stored column is written only when a profile is present. No profile row is added or removed, only the signed-in user's onboarding column may change, and every score is kept. |
| `Store.MarkOnboarded` | components/LiffProvider.tsx:121-124 | The onboarding update sets only that user's column, and only when it is served and the row exists. |
| `LiffSession.ApplyMonotone` | components/LiffProvider.tsx:44-126 | No single provider transition clears the in-memory flag, the cached 'true' or the stored column. |
| `LiffSession.RunMonotone` | components/LiffProvider.tsx:44-126 | Over any sequence of provider transitions, the flag, the cache entry and the stored column each stay set once set. |
| `Reconcile.RunKeepsConsistent` | app/record/page.tsx:79-96 | With deletion recounting as submission does, any sequence of submissions and deletions whose score writes are served keeps score == count. |
| `Seqs.FilterMembers` | app/history/page.tsx:71 | A filtered element comes from the input and passes the test, and every input element that passes the test is kept. |
| `HistoryPage.Without` | app/history/page.tsx:71 | The filtered list holds only entries of the old list whose id differs from the deleted one, and keeps every such entry. When no entry has the id, the list is unchanged. When exactly one entry has it, the list loses that position and keeps the rest in order. |

## Left out

- Rendering, routing and styling are not modelled. `alert` is an ignored
  output and `confirm` is the boolean input `confirmed`.
- Navigation home after a save is folded into the `Saved` outcome.
- The internals of the Supabase client and the LIFF SDK are replaced by the
  abstract `Store` and by the `LiffEnv` inputs. Row-level security is not
  modelled, so a delete by id is not restricted to the caller's rows.
- Concurrency between tabs or devices is not modelled. Its effect appears only
  as arbitrary store contents before each step.
- `created_at` is server-assigned in the source. Here it is the `now` input of
  a submission.
- The profile row's column defaults (score 0, onboarding not seen) are assumed,
  because the table schema is not part of this model.
- The `fetchHistory` effect (app/history/page.tsx:22-41) is modelled only
  through the `Listed` precondition on the list it loads. Its error branch only
  logs to the console.
- The localised date display (app/history/page.tsx:108) is not modelled,
  because it depends on locale and time zone.
- `app/page.tsx`, the leaderboard, is left out. Ranking is done by the store
  query, and the rest is display.
- `components/Onboarding.tsx` is a timed guided tour and is left out.
- `components/LoadingScreen.tsx` is static markup and is left out.
- `@/data/bible` is not part of this model. The catalog is an input, and each
  book's chapter count is a natural number.
- Calendar day status, per-book progress, range selection and per-day log
  sorting appear in none of the modelled files, so they are not modelled.
- The `liff` object exposed through the context is not modelled.
- The console logging of a failed profile upsert is not modelled.
- `RecordPage.ToggleChapterSpec`: the statement that other chapters keep their
  order is made only for duplicate-free selections. Those are the only ones
  the page can reach (`RecordPage.ReplayKeepsInv`).
- `Seqs.FilterMembers`: states membership only. Order preservation is proved
  where the pages need it (`Seqs.FilterDropsOne`, `Seqs.FilterKeepsAll`).

## Findings

| source | as written | input that shows it | evidently intended | confidence | as-written member | corrected member |
|---|---|---|---|---|---|---|
| app/history/page.tsx:55-68 | After any successful delete, the score becomes max(0, score - 1), even when no row was removed. | A user with one row and score 1 deletes log id 7, which is no longer stored (it was already deleted in another tab). The delete succeeds, the score becomes 0, and the count stays 1. | The score equals the user's row count after a delete. Submission recounts the rows for exactly this reason at app/record/page.tsx:79-91. | medium; not executed | `HistoryPage.DeleteAbsentIdDrifts` | `HistoryPage.HandleDeleteRecount` |

=== FILE: history.dfy ===
/** The history page: lists the user's reading logs, newest first, and lets
    the user delete one. The delete handler removes the row by id, then
    lowers the stored score by one (clamped at zero) instead of recounting,
    and drops the entry from the on-screen list.

    The confirmation dialog is the `confirmed` input; alerts are not
    modelled. The handler is only rendered for a signed-in user, so the
    user id is a plain input. */
module HistoryPage {
  import opened Options
  import opened Store
  import opened Seqs

  /** The `ReadingLog` fields the page shows. */
  datatype LogEntry = LogEntry(id: LogId, book: string, chapter: int, createdAt: int)

  /** `entry` shows stored row `row`, which belongs to `u`. */
  ghost predicate Shows(row: LogRow, u: UserId, entry: LogEntry) {
    row.key == LogKey(u, entry.book, entry.chapter) && row.createdAt == entry.createdAt
  }

  /** What the history query promises: exactly `u`'s rows, each once,
      ordered by `created_at` descending. */
  ghost predicate Listed(db: Db, u: UserId, list: seq<LogEntry>) {
    && (forall i :: 0 <= i < |list| ==> list[i].id in db.logs && Shows(db.logs[list[i].id], u, list[i]))
    && (forall i, j :: 0 <= i < j < |list| ==> list[i].id != list[j].id)
    && (forall id :: id in OwnedBy(db, u) ==> exists i :: 0 <= i < |list| && list[i].id == id)
    && (forall i, j :: 0 <= i < j < |list| ==> list[i].createdAt >= list[j].createdAt)
  }

  /** The faults the store answers the delete, the score read and the score
      write with. */
  datatype DeleteEnv = DeleteEnv(delete: Fault, read: Fault, update: Fault)

  datatype DeleteOutcome = Cancelled | Deleted | Failed(code: ErrorCode)

  datatype DeleteResult = DeleteResult(db: Db, list: seq<LogEntry>, outcome: DeleteOutcome)

  /** Position `k` holds the one entry of `list` with id `logId`. */
  predicate OnlyAt(list: seq<LogEntry>, logId: LogId, k: int) {
    && 0 <= k < |list|
    && list[k].id == logId
    && forall i :: 0 <= i < |list| && i != k ==> list[i].id != logId
  }

  /** `prev.filter(l => l.id !== logId)`: the list without that id's
      entries, the rest kept in order. */
  function Without(list: seq<LogEntry>, logId: LogId): (r: seq<LogEntry>)
    ensures forall i :: 0 <= i < |r| ==> r[i].id != logId && r[i] in list
    ensures forall i :: 0 <= i < |list| && list[i].id != logId ==> list[i] in r
    ensures (forall i :: 0 <= i < |list| ==> list[i].id != logId) ==> r == list
    ensures forall k :: OnlyAt(list, logId, k) ==> r == list[..k] + list[k + 1..]
  {
    var keep := (e: LogEntry) => e.id != logId;
    FilterMembers(keep, list);
    assert (forall i :: 0 <= i < |list| ==> list[i].id != logId) ==> Filter(keep, list) == list by {
      if forall i :: 0 <= i < |list| ==> list[i].id != logId {
        FilterKeepsAll(keep, list);
      }
    }
    assert forall k :: OnlyAt(list, logId, k) ==> Filter(keep, list) == list[..k] + list[k + 1..] by {
      forall k | OnlyAt(list, logId, k)
        ensures Filter(keep, list) == list[..k] + list[k + 1..]
      {
        FilterDropsOne(keep, list, k);
      }
    }
    Filter(keep, list)
  }

  function Max(a: int, b: int): int {
    if a >= b then a else b
  }

  /** `handleDelete`, as written: delete, then `max(0, score - 1)`. */
  function HandleDelete(
    db: Db, list: seq<LogEntry>, u: UserId, logId: LogId, confirmed: bool, env: DeleteEnv): (r: DeleteResult)
    ensures !confirmed ==> r == DeleteResult(db, list, Cancelled)
    ensures confirmed && env.delete.Some? ==> r == DeleteResult(db, list, Failed(env.delete.value))
    ensures r.outcome.Deleted? <==> confirmed && env.delete.None?
    ensures r.outcome.Deleted? ==> r.db.logs == db.logs - {logId} && r.db.nextId == db.nextId
    ensures r.outcome.Deleted? ==>
      && (forall i :: 0 <= i < |r.list| ==> r.list[i].id != logId && r.list[i] in list)
      && (forall i :: 0 <= i < |list| && list[i].id != logId ==> list[i] in r.list)
      && r.list == Without(list, logId)
    ensures r.outcome.Deleted? && env.read.None? && env.update.None? && u in db.profiles ==>
      && u in r.db.profiles
      && r.db.profiles[u].score >= 0
      && (db.profiles[u].score >= 1 ==> r.db.profiles[u].score == db.profiles[u].score - 1)
      && (db.profiles[u].score <= 0 ==> r.db.profiles[u].score == 0)
    ensures r.outcome.Deleted? && (env.read.Some? || env.update.Some? || u !in db.profiles) ==>
      r.db.profiles == db.profiles
    ensures forall v :: v in db.profiles && v != u ==> v in r.db.profiles && r.db.profiles[v] == db.profiles[v]
    ensures r.db.profiles.Keys == db.profiles.Keys
    ensures u in db.profiles ==> r.db.profiles[u] == db.profiles[u].(score := r.db.profiles[u].score)
  {
    if !confirmed then DeleteResult(db, list, Cancelled)
    else
      match DeleteById(db, logId, env.delete)
      case Err(code) => DeleteResult(db, list, Failed(code))
      case Ok(db1) =>
        var db2 :=
          match ReadScore(db1, u, env.read)
          case Some(score) => UpdateScore(db1, u, Max(0, score - 1), env.update)
          case None => db1;
        DeleteResult(db2, Without(list, logId), Deleted)
  }

  /** With every call answered, the decrement keeps the score equal to the
      row count exactly when the deleted id was one of `u`'s rows, or when
      `u` had no rows to begin with. */
  lemma DeleteConsistency(db: Db, list: seq<LogEntry>, u: UserId, logId: LogId)
    requires Consistent(db, u)
    ensures var r := HandleDelete(db, list, u, logId, true, DeleteEnv(None, None, None));
      Consistent(r.db, u) <==> logId in OwnedBy(db, u) || Count(db, u) == 0
  {
    DeleteCount(db, logId, u);
  }

  /** The drift: deleting an id that is no longer stored (already deleted
      in another tab, say) still succeeds and still lowers the score, so a
      user with rows ends up with a score one below the row count. */
  lemma DeleteAbsentIdDrifts(db: Db, list: seq<LogEntry>, u: UserId, logId: LogId)
    requires Consistent(db, u)
    requires logId !in db.logs
    requires Count(db, u) > 0
    ensures var r := HandleDelete(db, list, u, logId, true, DeleteEnv(None, None, None));
      && r.outcome == Deleted
      && r.db.logs == db.logs
      && r.db.profiles[u].score == Count(r.db, u) - 1
      && !Consistent(r.db, u)
  {
    DeleteCount(db, logId, u);
  }

  /** Removing a listed id from both the store and the list keeps the
      listing exact. */
  lemma ListedWithoutListed(db: Db, db': Db, u: UserId, list: seq<LogEntry>, k: nat)
    requires Listed(db, u, list)
    requires k < |list|
    requires db'.logs == db.logs - {list[k].id}
    ensures Listed(db', u, list[..k] + list[k + 1..])
  {
    var rest := list[..k] + list[k + 1..];
    assert forall i :: 0 <= i < |rest| ==> rest[i] == list[if i < k then i else i + 1];
    forall id | id in OwnedBy(db', u) ensures exists i :: 0 <= i < |rest| && rest[i].id == id {
      assert id in OwnedBy(db, u);
      var j :| 0 <= j < |list| && list[j].id == id;
      if j < k {
        assert rest[j].id == id;
      } else {
        assert rest[j - 1].id == id;
      }
    }
  }

  /** Removing an id the list does not show keeps the listing exact. */
  lemma ListedWithoutUnlisted(db: Db, db': Db, u: UserId, list: seq<LogEntry>, logId: LogId)
    requires Listed(db, u, list)
    requires forall i :: 0 <= i < |list| ==> list[i].id != logId
    requires db'.logs == db.logs - {logId}
    ensures Listed(db', u, list)
  {
    assert OwnedBy(db', u) <= OwnedBy(db, u);
  }

  /** Deleting keeps the on-screen list in step with the store: it still
      lists exactly `u`'s rows, newest first. When the id was listed, the
      list loses exactly that entry and nothing else moves. */
  lemma DeleteKeepsListing(
    db: Db, list: seq<LogEntry>, u: UserId, logId: LogId, confirmed: bool, env: DeleteEnv)
    requires Listed(db, u, list)
    requires HandleDelete(db, list, u, logId, confirmed, env).outcome.Deleted?
    ensures Listed(HandleDelete(db, list, u, logId, confirmed, env).db, u,
                   HandleDelete(db, list, u, logId, confirmed, env).list)
    ensures forall k :: 0 <= k < |list| && list[k].id == logId ==>
      HandleDelete(db, list, u, logId, confirmed, env).list == list[..k] + list[k + 1..]
    ensures (forall i :: 0 <= i < |list| ==> list[i].id != logId) ==>
      HandleDelete(db, list, u, logId, confirmed, env).list == list
  {
    var r := HandleDelete(db, list, u, logId, confirmed, env);
    var keep := (e: LogEntry) => e.id != logId;
    if k :| 0 <= k < |list| && list[k].id == logId {
      FilterDropsOne(keep, list, k);
      ListedWithoutListed(db, r.db, u, list, k);
      forall k' | 0 <= k' < |list| && list[k'].id == logId ensures r.list == list[..k'] + list[k' + 1..] {
        assert k' == k;
      }
    } else {
      FilterKeepsAll(keep, list);
      ListedWithoutUnlisted(db, r.db, u, list, logId);
    }
  }

  /** The corrected handler: after the delete, recount the user's rows and
      write the count, the same step `handleSubmit` ends with. */
  function HandleDeleteRecount(
    db: Db, list: seq<LogEntry>, u: UserId, logId: LogId, confirmed: bool, env: DeleteEnv): (r: DeleteResult)
    requires Valid(db)
    ensures Valid(r.db)
    ensures !confirmed ==> r == DeleteResult(db, list, Cancelled)
    ensures confirmed && env.delete.Some? ==> r == DeleteResult(db, list, Failed(env.delete.value))
    ensures r.outcome.Deleted? <==> confirmed && env.delete.None?
    ensures r.outcome.Deleted? ==> r.db.logs == db.logs - {logId} && r.list == Without(list, logId)
    ensures r.outcome.Deleted? && env.read.None? && env.update.None? && u in db.profiles ==>
      Consistent(r.db, u)
    ensures u in db.profiles ==> u in r.db.profiles
    ensures forall v :: v in db.profiles && v != u ==> v in r.db.profiles && r.db.profiles[v] == db.profiles[v]
    ensures r.db.profiles.Keys == db.profiles.Keys
    ensures u in db.profiles ==> r.db.profiles[u] == db.profiles[u].(score := r.db.profiles[u].score)
  {
    if !confirmed then DeleteResult(db, list, Cancelled)
    else
      match DeleteById(db, logId, env.delete)
      case Err(code) => DeleteResult(db, list, Failed(code))
      case Ok(db1) =>
        DeleteValid(db, logId);
        DeleteResult(SyncScore(db1, u, env.read, env.update), Without(list, logId), Deleted)
  }
}

=== FILE: liff.dfy ===
/** The session provider: signs the user in through the messaging platform's
    mini-app SDK, mirrors the SDK profile into `profiles`, and keeps the
    "has seen onboarding" flag coherent across the browser's local cache,
    the `has_seen_onboarding` column and in-memory state.

    The SDK calls (`init`, `isLoggedIn`, `getProfile`, `login`) and the
    environment variable holding the app id are inputs (`LiffEnv`); the
    local cache is the single localStorage slot the provider uses. */
module LiffSession {
  import opened Options
  import opened Store

  const MissingIdMessage := "NEXT_PUBLIC_LIFF_ID is not defined"
  const UnknownErrorMessage := "LIFF initialization failed with unknown error"
  const Seen := "true"

  /** The profile the SDK returns; `pictureUrl` is optional. */
  datatype LiffProfile = LiffProfile(userId: string, displayName: string, pictureUrl: Option<string>)

  /** The app's profile, also the shape upserted into `profiles`. */
  datatype Profile = Profile(id: UserId, displayName: string, avatarUrl: string)

  /** The state the provider exposes to the pages. */
  datatype Session = Session(
    profile: Option<Profile>,
    error: Option<string>,
    isInitializing: bool,
    hasSeenOnboarding: bool)

  /** Browser-side state: the onboarding cache entry and the session. */
  datatype Client = Client(cache: Option<string>, session: Session)

  /** A thrown value: an `Error` carries a message, anything else does not. */
  datatype Thrown = ErrorObject(message: string) | NonError

  datatype Call<T> = Returned(value: T) | Threw(thrown: Thrown)

  /** What the outside world answers during one `initLiff` run. */
  datatype LiffEnv = LiffEnv(
    liffId: Option<string>,
    initThrows: Option<Thrown>,
    loggedIn: bool,
    getProfile: Call<LiffProfile>,
    upsertFault: Fault,
    lookupFault: Fault)

  /** The outcome of `initLiff`; `loginRedirect` records that `liff.login()`
      was called and the page is about to leave. */
  datatype InitResult = InitResult(client: Client, db: Db, loginRedirect: bool)

  /** React's initial provider state. */
  function InitialSession(): Session {
    Session(None, None, true, false)
  }

  /** JavaScript falsiness of a cache read: `null` or the empty string. */
  predicate Unset(cache: Option<string>) {
    cache.None? || cache.value == ""
  }

  /** The message `setError` receives for a thrown value. */
  function ErrorMessage(t: Thrown): string {
    match t
    case ErrorObject(m) => m
    case NonError => UnknownErrorMessage
  }

  /** SDK profile to app profile; a missing or empty picture becomes `''`. */
  function ToProfile(p: LiffProfile): Profile {
    Profile(p.userId, p.displayName, p.pictureUrl.GetOr(""))
  }

  /** The `catch`/`finally` ending of `initLiff`. */
  function Abort(cache: Option<string>, s: Session, db: Db, t: Thrown): InitResult {
    InitResult(Client(cache, s.(error := Some(ErrorMessage(t)), isInitializing := false)), db, false)
  }

  /** One run of `initLiff`. */
  function InitLiff(c: Client, db: Db, env: LiffEnv): (r: InitResult)
    ensures !r.client.session.isInitializing
    ensures r.db.logs == db.logs && r.db.nextId == db.nextId
    ensures c.session.hasSeenOnboarding ==> r.client.session.hasSeenOnboarding
    ensures c.cache == Some(Seen) ==> r.client.session.hasSeenOnboarding
    ensures r.client.cache == c.cache || (Unset(c.cache) && r.client.cache == Some(Seen))
    ensures !Unset(c.cache) ==>
      r.client.cache == c.cache &&
      r.client.session.hasSeenOnboarding == (c.session.hasSeenOnboarding || c.cache == Some(Seen))
    ensures r.client.session.hasSeenOnboarding && !c.session.hasSeenOnboarding && c.cache != Some(Seen) ==>
      r.client.cache == Some(Seen) && r.client.session.profile.Some? &&
      var u := r.client.session.profile.value.id;
      u in r.db.profiles && r.db.profiles[u].hasSeenOnboarding
    ensures env.upsertFault.Some? ==> r.db == db
    ensures forall v :: v in db.profiles && (r.client.session.profile.None? || v != r.client.session.profile.value.id) ==>
      v in r.db.profiles && r.db.profiles[v] == db.profiles[v]
    ensures r.db.profiles.Keys == db.profiles.Keys ||
      (r.client.session.profile.Some? &&
       r.db.profiles.Keys == db.profiles.Keys + {r.client.session.profile.value.id})
    ensures forall v :: v in db.profiles ==>
      && v in r.db.profiles
      && r.db.profiles[v].score == db.profiles[v].score
      && r.db.profiles[v].hasSeenOnboarding == db.profiles[v].hasSeenOnboarding
  {
    var s0 := if c.cache == Some(Seen) then c.session.(hasSeenOnboarding := true) else c.session;
    if env.liffId.None? || env.liffId.value == "" then
      Abort(c.cache, s0, db, ErrorObject(MissingIdMessage))
    else if env.initThrows.Some? then
      Abort(c.cache, s0, db, env.initThrows.value)
    else if !env.loggedIn then
      InitResult(Client(c.cache, s0.(isInitializing := false)), db, true)
    else
      match env.getProfile
      case Threw(t) => Abort(c.cache, s0, db, t)
      case Returned(lp) =>
        var p := ToProfile(lp);
        var s1 := s0.(profile := Some(p), isInitializing := false);
        var db1 := UpsertProfile(db, p.id, p.displayName, p.avatarUrl, env.upsertFault);
        if Unset(c.cache) && ReadOnboarding(db1, p.id, env.lookupFault) then
          InitResult(Client(Some(Seen), s1.(hasSeenOnboarding := true)), db1, false)
        else
          InitResult(Client(c.cache, s1), db1, false)
  }

  /** A missing app id is reported before the SDK is touched; the store is
      not read or written and no profile appears. */
  lemma InitLiffMissingId(c: Client, db: Db, env: LiffEnv)
    requires env.liffId.None? || env.liffId == Some("")
    ensures InitLiff(c, db, env).client.session.error == Some(MissingIdMessage)
    ensures InitLiff(c, db, env).client.session.profile == c.session.profile
    ensures InitLiff(c, db, env).db == db
    ensures !InitLiff(c, db, env).loginRedirect
  {
  }

  /** When `liff.init` or `liff.getProfile` throws, the error is reported
      (an `Error`'s message, or the fixed text for any other value), the
      profile stays as it was, the store is not touched and the run does
      not redirect. */
  lemma InitLiffThrows(c: Client, db: Db, env: LiffEnv, t: Thrown)
    requires env.liffId.Some? && env.liffId.value != ""
    requires env.initThrows == Some(t) || (env.initThrows.None? && env.loggedIn && env.getProfile == Threw(t))
    ensures var r := InitLiff(c, db, env);
      && r.client.session.error == Some(ErrorMessage(t))
      && (t.ErrorObject? ==> r.client.session.error == Some(t.message))
      && (t.NonError? ==> r.client.session.error == Some(UnknownErrorMessage))
      && r.client.session.profile == c.session.profile
      && r.db == db
      && !r.loginRedirect
  {
  }

  /** A signed-out user is sent to login; the run ends with no profile
      change, no error and no store access. */
  lemma InitLiffSignedOut(c: Client, db: Db, env: LiffEnv)
    requires env.liffId.Some? && env.liffId.value != "" && env.initThrows.None?
    requires !env.loggedIn
    ensures InitLiff(c, db, env).loginRedirect
    ensures InitLiff(c, db, env).client.session.profile == c.session.profile
    ensures InitLiff(c, db, env).client.session.error == c.session.error
    ensures InitLiff(c, db, env).db == db
  {
  }

  /** A signed-in run publishes the SDK profile (id, name, and the picture
      or `''`) and, unless the upsert failed, stores the same identity in
      `profiles` without touching the row's score. */
  lemma InitLiffSignedIn(c: Client, db: Db, env: LiffEnv, lp: LiffProfile)
    requires env.liffId.Some? && env.liffId.value != "" && env.initThrows.None? && env.loggedIn
    requires env.getProfile == Returned(lp)
    ensures var r := InitLiff(c, db, env);
      && !r.loginRedirect
      && r.client.session.error == c.session.error
      && r.client.session.profile.Some?
      && r.client.session.profile.value.id == lp.userId
      && r.client.session.profile.value.displayName == lp.displayName
      && (lp.pictureUrl.Some? ==> r.client.session.profile.value.avatarUrl == lp.pictureUrl.value)
      && (lp.pictureUrl.None? ==> r.client.session.profile.value.avatarUrl == "")
      && (env.upsertFault.None? ==>
            && lp.userId in r.db.profiles
            && r.db.profiles[lp.userId].displayName == lp.displayName
            && r.db.profiles[lp.userId].avatarUrl == lp.pictureUrl.GetOr("")
            && (lp.userId in db.profiles ==> r.db.profiles[lp.userId].score == db.profiles[lp.userId].score))
  {
  }

  /** The remote column is consulted exactly when the cache is unset: then a
      stored `true` sets the flag and fills the cache; any other outcome of
      the lookup leaves both as they were. */
  lemma InitLiffRemoteLookup(c: Client, db: Db, env: LiffEnv, lp: LiffProfile)
    requires env.liffId.Some? && env.liffId.value != "" && env.initThrows.None? && env.loggedIn
    requires env.getProfile == Returned(lp)
    requires Unset(c.cache)
    ensures var r := InitLiff(c, db, env);
      var remote := ReadOnboarding(UpsertProfile(db, lp.userId, lp.displayName, lp.pictureUrl.GetOr(""), env.upsertFault),
                                   lp.userId, env.lookupFault);
      && r.client.session.hasSeenOnboarding == (c.session.hasSeenOnboarding || remote)
      && r.client.cache == (if remote then Some(Seen) else c.cache)
  {
  }

  /** `completeOnboarding`: the cache and the flag are set unconditionally;
      the column is written only for a signed-in user. `fault` is the
      answer to that write, whose reply is discarded. */
  function CompleteOnboarding(c: Client, db: Db, fault: Fault): (r: (Client, Db))
    ensures r.0.cache == Some(Seen) && r.0.session.hasSeenOnboarding
    ensures r.0.session == c.session.(hasSeenOnboarding := true)
    ensures r.1.logs == db.logs && r.1.nextId == db.nextId
    ensures c.session.profile.None? ==> r.1 == db
    ensures c.session.profile.Some? && fault.None? && c.session.profile.value.id in db.profiles ==>
      ColumnSet(r.1, c.session.profile.value.id)
    ensures r.1.profiles.Keys == db.profiles.Keys
    ensures forall v :: v in db.profiles ==>
      r.1.profiles[v] == db.profiles[v].(hasSeenOnboarding := r.1.profiles[v].hasSeenOnboarding)
    ensures forall v :: v in db.profiles && (c.session.profile.None? || v != c.session.profile.value.id) ==>
      r.1.profiles[v] == db.profiles[v]
  {
    var c' := Client(Some(Seen), c.session.(hasSeenOnboarding := true));
    if c.session.profile.Some? then (c', MarkOnboarded(db, c.session.profile.value.id, fault))
    else (c', db)
  }

  /** The provider's transitions. */
  datatype Step = Init(env: LiffEnv) | Complete(fault: Fault)

  function Apply(c: Client, db: Db, step: Step): (Client, Db) {
    match step
    case Init(env) =>
      var r := InitLiff(c, db, env);
      (r.client, r.db)
    case Complete(fault) => CompleteOnboarding(c, db, fault)
  }

  function Run(c: Client, db: Db, steps: seq<Step>): (Client, Db)
    decreases |steps|
  {
    if |steps| == 0 then (c, db)
    else
      var next := Apply(c, db, steps[0]);
      Run(next.0, next.1, steps[1..])
  }

  /** The stored `has_seen_onboarding` column of `u` is true. */
  ghost predicate ColumnSet(db: Db, u: UserId) {
    u in db.profiles && db.profiles[u].hasSeenOnboarding
  }

  /** A single transition never clears the in-memory flag, the cache entry
      or the stored column. */
  lemma ApplyMonotone(c: Client, db: Db, step: Step, u: UserId)
    ensures var next := Apply(c, db, step);
      && (c.session.hasSeenOnboarding ==> next.0.session.hasSeenOnboarding)
      && (c.cache == Some(Seen) ==> next.0.cache == Some(Seen))
      && (ColumnSet(db, u) ==> ColumnSet(next.1, u))
  {
  }

  /** No sequence of provider transitions clears the in-memory flag, the
      cache entry or the stored column once it is set: each is monotone. */
  lemma {:induction false} RunMonotone(c: Client, db: Db, steps: seq<Step>, u: UserId)
    ensures var r := Run(c, db, steps);
      && (c.session.hasSeenOnboarding ==> r.0.session.hasSeenOnboarding)
      && (c.cache == Some(Seen) ==> r.0.cache == Some(Seen))
      && (ColumnSet(db, u) ==> ColumnSet(r.1, u))
    decreases |steps|
  {
    if |steps| > 0 {
      ApplyMonotone(c, db, steps[0], u);
      var next := Apply(c, db, steps[0]);
      RunMonotone(next.0, next.1, steps[1..], u);
    }
  }
}

=== FILE: options.dfy ===
/** Optional values, standing in for JavaScript's `null` / `undefined`. */
module Options {

  /** Either a present value or its absence. */
  datatype Option<T> = Some(value: T) | None {

    /** The present value, or `fallback` when absent. */
    function GetOr(fallback: T): T {
      if Some? then value else fallback
    }
  }
}

=== FILE: reconcile.dfy ===
/** The score invariant over a whole session: a user who submits
    selections and deletes logs keeps `score == count` as long as each
    operation's score write is served, provided deletion recounts the way
    submission does. */
module Reconcile {
  import opened Options
  import opened Store
  import LiffSession
  import RecordPage
  import HistoryPage

  /** One user operation, with the store's answers to its calls. */
  datatype Op =
    | Submit(catalog: seq<RecordPage.Book>, page: RecordPage.Page, submitEnv: RecordPage.SubmitEnv)
    | Delete(list: seq<HistoryPage.LogEntry>, logId: LogId, confirmed: bool, deleteEnv: HistoryPage.DeleteEnv)

  /** The count read and the score update of `op` were both served. */
  predicate Synced(op: Op) {
    match op
    case Submit(_, _, env) => env.count.None? && env.update.None?
    case Delete(_, _, _, env) => env.read.None? && env.update.None?
  }

  function Step(db: Db, profile: LiffSession.Profile, op: Op): (r: Db)
    requires Valid(db)
    ensures Valid(r)
    ensures profile.id in db.profiles ==> profile.id in r.profiles
  {
    match op
    case Submit(catalog, page, env) =>
      RecordPage.HandleSubmit(db, catalog, Some(profile), page, env).db
    case Delete(list, logId, confirmed, env) =>
      HistoryPage.HandleDeleteRecount(db, list, profile.id, logId, confirmed, env).db
  }

  function Run(db: Db, profile: LiffSession.Profile, ops: seq<Op>): (r: Db)
    requires Valid(db)
    ensures Valid(r)
    decreases |ops|
  {
    if |ops| == 0 then db else Run(Step(db, profile, ops[0]), profile, ops[1..])
  }

  /** One operation keeps the invariant: a failed or skipped one changes
      nothing, a completed one ends with a recount. */
  lemma StepKeepsConsistent(db: Db, profile: LiffSession.Profile, op: Op)
    requires Valid(db)
    requires Consistent(db, profile.id)
    requires Synced(op)
    ensures Consistent(Step(db, profile, op), profile.id)
  {
  }

  /** Any sequence of served operations keeps the score equal to the
      user's row count. */
  lemma {:induction false} RunKeepsConsistent(db: Db, profile: LiffSession.Profile, ops: seq<Op>)
    requires Valid(db)
    requires Consistent(db, profile.id)
    requires forall i :: 0 <= i < |ops| ==> Synced(ops[i])
    ensures Consistent(Run(db, profile, ops), profile.id)
    decreases |ops|
  {
    if |ops| > 0 {
      StepKeepsConsistent(db, profile, ops[0]);
      RunKeepsConsistent(Step(db, profile, ops[0]), profile, ops[1..]);
    }
  }
}

=== FILE: record.dfy ===
/** The record page: the user picks a book from the catalog, toggles chapter
    buttons, and submits the selection as `reading_logs` rows, after which
    the profile score is recounted from the store.

    The catalog (`bibleBooks`) is an input; alerts and navigation are
    outputs the model reduces to a `SubmitOutcome`. */
module RecordPage {
  import opened Options
  import opened Store
  import opened Seqs
  import LiffSession

  /** A catalog entry. */
  datatype Book = Book(name: string, chapters: nat)

  /** The page's React state. */
  datatype Page = Page(bookIndex: Option<nat>, chapters: seq<int>, isSubmitting: bool)

  function InitialPage(): Page {
    Page(None, [], false)
  }

  /** `bibleBooks[selectedBookIndex]`, or nothing for an unset or
      out-of-range index. */
  function SelectedBook(catalog: seq<Book>, page: Page): Option<Book> {
    if page.bookIndex.Some? && page.bookIndex.value < |catalog|
    then Some(catalog[page.bookIndex.value])
    else None
  }

  /** `toggleChapter`: remove every copy of `c` when present, else append it. */
  function ToggleChapter(chapters: seq<int>, c: int): seq<int> {
    if c in chapters then Filter(x => x != c, chapters) else chapters + [c]
  }

  /** Toggling a selected chapter drops it and only it; toggling an
      unselected one appends it at the end. On a duplicate-free selection the
      removal cuts out exactly the chapter's position, so the other chapters
      keep their order. */
  lemma ToggleChapterSpec(chapters: seq<int>, c: int)
    ensures var r := ToggleChapter(chapters, c);
      && (c in chapters ==> c !in r && forall i :: 0 <= i < |chapters| && chapters[i] != c ==> chapters[i] in r)
      && (c in chapters ==> forall i :: 0 <= i < |r| ==> r[i] in chapters)
      && (c !in chapters ==> r == chapters + [c])
    ensures NoDuplicates(chapters) ==>
      forall k :: 0 <= k < |chapters| && chapters[k] == c ==>
        ToggleChapter(chapters, c) == chapters[..k] + chapters[k + 1..]
  {
    FilterMembers(x => x != c, chapters);
    if NoDuplicates(chapters) {
      forall k | 0 <= k < |chapters| && chapters[k] == c
        ensures ToggleChapter(chapters, c) == chapters[..k] + chapters[k + 1..]
      {
        FilterDropsOne(x => x != c, chapters, k);
      }
    }
  }

  /** Toggling keeps the selection free of duplicates. */
  lemma ToggleChapterNoDuplicates(chapters: seq<int>, c: int)
    requires NoDuplicates(chapters)
    ensures NoDuplicates(ToggleChapter(chapters, c))
  {
    if c in chapters {
      FilterNoDuplicates(x => x != c, chapters);
    }
  }

  /** Toggling an unselected chapter twice restores the selection exactly. */
  lemma ToggleChapterTwice(chapters: seq<int>, c: int)
    requires c !in chapters
    ensures ToggleChapter(ToggleChapter(chapters, c), c) == chapters
  {
    var s := chapters + [c];
    assert c in s;
    FilterDropsOne(x => x != c, s, |chapters|);
    assert s[..|chapters|] == chapters;
  }

  /** The chapter grid `Array.from({ length: n }, (_, i) => i + 1)`. */
  function ChapterGrid(n: nat): (r: seq<int>)
    ensures |r| == n
    ensures forall c :: c in r <==> 1 <= c <= n
  {
    var r := seq(n, i => i + 1);
    assert forall c :: 1 <= c <= n ==> c in r by {
      forall c | 1 <= c <= n ensures c in r {
        assert r[c - 1] == c;
      }
    }
    r
  }

  /** What the user can do on the page. */
  datatype Action = PickBook(index: nat) | PressChapter(chapter: int) | Clear | Back

  /** The actions the rendered page offers: the book list while no book is
      selected; the chapter grid, the clear button (hidden on an empty
      selection) and the back arrow once one is. */
  predicate Offered(catalog: seq<Book>, page: Page, a: Action) {
    match a
    case PickBook(i) => SelectedBook(catalog, page).None? && i < |catalog|
    case PressChapter(c) =>
      SelectedBook(catalog, page).Some? && c in ChapterGrid(SelectedBook(catalog, page).value.chapters)
    case Clear => SelectedBook(catalog, page).Some? && |page.chapters| > 0
    case Back => SelectedBook(catalog, page).Some?
  }

  /** `handleBookSelect`, `toggleChapter`, the clear button and the back
      arrow (which unsets the book but keeps the chapters). */
  function Apply(page: Page, a: Action): (r: Page)
    ensures r.isSubmitting == page.isSubmitting
    ensures a.PickBook? ==> r.bookIndex == Some(a.index) && r.chapters == []
    ensures a.Clear? ==> r.bookIndex == page.bookIndex && r.chapters == []
    ensures a.Back? ==> r.bookIndex.None? && r.chapters == page.chapters
    ensures a.PressChapter? ==>
      && r.bookIndex == page.bookIndex
      && (a.chapter in r.chapters <==> a.chapter !in page.chapters)
  {
    match a
    case PickBook(i) => page.(bookIndex := Some(i), chapters := [])
    case PressChapter(c) =>
      ToggleChapterSpec(page.chapters, c);
      page.(chapters := ToggleChapter(page.chapters, c))
    case Clear => page.(chapters := [])
    case Back => page.(bookIndex := None)
  }

  /** The selection invariant: no chapter twice, and every chapter within
      the selected book's range. */
  ghost predicate Inv(catalog: seq<Book>, page: Page) {
    && NoDuplicates(page.chapters)
    && (SelectedBook(catalog, page).Some? ==>
          forall i :: 0 <= i < |page.chapters| ==>
            1 <= page.chapters[i] <= SelectedBook(catalog, page).value.chapters)
  }

  lemma ApplyPreservesInv(catalog: seq<Book>, page: Page, a: Action)
    requires Inv(catalog, page)
    requires Offered(catalog, page, a)
    ensures Inv(catalog, Apply(page, a))
  {
    if a.PressChapter? {
      var c := a.chapter;
      var n := SelectedBook(catalog, page).value.chapters;
      ToggleChapterNoDuplicates(page.chapters, c);
      ToggleChapterSpec(page.chapters, c);
      var r := ToggleChapter(page.chapters, c);
      forall i | 0 <= i < |r| ensures 1 <= r[i] <= n {
        if c !in page.chapters && i == |page.chapters| {
          assert r[i] == c;
        } else {
          assert r[i] in page.chapters;
        }
      }
    }
  }

  /** Replays user actions, ignoring any the page does not offer. */
  function Replay(catalog: seq<Book>, page: Page, actions: seq<Action>): Page
    decreases |actions|
  {
    if |actions| == 0 then page
    else if Offered(catalog, page, actions[0]) then Replay(catalog, Apply(page, actions[0]), actions[1..])
    else Replay(catalog, page, actions[1..])
  }

  /** Every page reachable from the initial one through the rendered
      controls keeps a duplicate-free, in-range selection. */
  lemma {:induction false} ReplayKeepsInv(catalog: seq<Book>, page: Page, actions: seq<Action>)
    requires Inv(catalog, page)
    ensures Inv(catalog, Replay(catalog, page, actions))
    decreases |actions|
  {
    if |actions| > 0 {
      if Offered(catalog, page, actions[0]) {
        ApplyPreservesInv(catalog, page, actions[0]);
        ReplayKeepsInv(catalog, Apply(page, actions[0]), actions[1..]);
      } else {
        ReplayKeepsInv(catalog, page, actions[1..]);
      }
    }
  }

  /** The rows `handleSubmit` writes: one per selected chapter, in order. */
  function BuildLogs(u: UserId, book: string, chapters: seq<int>): (r: seq<LogKey>)
    ensures |r| == |chapters|
    ensures forall i :: 0 <= i < |r| ==> r[i] == LogKey(u, book, chapters[i])
    decreases |chapters|
  {
    if |chapters| == 0 then [] else [LogKey(u, book, chapters[0])] + BuildLogs(u, book, chapters[1..])
  }

  /** The keys a submission of `chapters` of `book` by `u` stands for. */
  function Submitted(u: UserId, book: string, chapters: seq<int>): set<LogKey> {
    set c | c in chapters :: LogKey(u, book, c)
  }

  lemma BuildLogsKeys(u: UserId, book: string, chapters: seq<int>)
    ensures KeySet(BuildLogs(u, book, chapters)) == Submitted(u, book, chapters)
  {
    var logs := BuildLogs(u, book, chapters);
    forall k | k in Submitted(u, book, chapters) ensures k in KeySet(logs) {
      var i :| 0 <= i < |chapters| && k == LogKey(u, book, chapters[i]);
      assert logs[i] == k;
    }
  }

  /** The faults the store answers one submission with, and its clock. */
  datatype SubmitEnv = SubmitEnv(now: int, insert: Fault, upsert: Fault, count: Fault, update: Fault)

  /** `Saved(n)` is the success alert followed by navigation home; `n` is
      the selection's length, whatever part of it was already stored. */
  datatype SubmitOutcome = Skipped | Saved(n: nat) | Failed(code: ErrorCode)

  datatype SubmitResult = SubmitResult(db: Db, page: Page, outcome: SubmitOutcome)

  /** Plain insert, and on `23505` a retry that skips existing keys. */
  function WritePhase(db: Db, keys: seq<LogKey>, env: SubmitEnv): (r: Reply<Db>)
    requires Valid(db)
    ensures r.Ok? ==> Valid(r.value) && KeepsRows(db, r.value) && r.value.profiles == db.profiles
    ensures r.Ok? ==> Keys(r.value) == Keys(db) + KeySet(keys)
    ensures r.Err? <==>
      || (env.insert.Some? && env.insert.value != UniqueViolation)
      || ((env.insert.Some? || !NoDuplicates(keys) || !(KeySet(keys) !! Keys(db))) && env.upsert.Some?)
  {
    match InsertAll(db, keys, env.now, env.insert)
    case Ok(db1) => Ok(db1)
    case Err(code) =>
      if code == UniqueViolation then UpsertIgnoringDuplicates(db, keys, env.now, env.upsert)
      else Err(code)
  }

  /** Resubmitting keys that are all stored already changes nothing. */
  lemma WritePhaseResubmit(db: Db, keys: seq<LogKey>, env: SubmitEnv)
    requires Valid(db)
    requires |keys| > 0 && KeySet(keys) <= Keys(db)
    ensures WritePhase(db, keys, env).Ok? ==> WritePhase(db, keys, env).value == db
  {
    InsertMissingPresent(db, keys, env.now);
    assert keys[0] in KeySet(keys);
  }

  /** `handleSubmit`. */
  function HandleSubmit(
    db: Db, catalog: seq<Book>, profile: Option<LiffSession.Profile>, page: Page, env: SubmitEnv): (r: SubmitResult)
    requires Valid(db)
    ensures Valid(r.db)
    ensures r.outcome.Skipped? <==>
      profile.None? || SelectedBook(catalog, page).None? || |page.chapters| == 0
    ensures r.outcome.Skipped? ==> r.db == db && r.page == page
    ensures !r.outcome.Skipped? ==> r.page == page.(isSubmitting := false)
    ensures r.outcome.Failed? ==> r.db == db
    ensures r.outcome.Saved? ==>
      && r.outcome.n == |page.chapters|
      && KeepsRows(db, r.db)
      && Keys(r.db) == Keys(db) + Submitted(profile.value.id, SelectedBook(catalog, page).value.name, page.chapters)
    ensures r.outcome.Saved? && env.count.None? && env.update.None? && profile.value.id in db.profiles ==>
      Consistent(r.db, profile.value.id)
    ensures r.outcome.Saved? && (env.count.Some? || env.update.Some? || profile.value.id !in db.profiles) ==>
      r.db.profiles == db.profiles
    ensures !r.outcome.Skipped? ==>
      (r.outcome.Failed? <==>
         WritePhase(db, BuildLogs(profile.value.id, SelectedBook(catalog, page).value.name, page.chapters), env).Err?)
    ensures !r.outcome.Skipped? && env.insert.None? && env.upsert.None? ==> r.outcome.Saved?
    ensures r.db.profiles.Keys == db.profiles.Keys
    ensures forall v :: v in db.profiles && (profile.None? || v != profile.value.id) ==>
      v in r.db.profiles && r.db.profiles[v] == db.profiles[v]
    ensures profile.Some? && profile.value.id in db.profiles ==>
      r.db.profiles[profile.value.id] ==
      db.profiles[profile.value.id].(score := r.db.profiles[profile.value.id].score)
  {
    if profile.None? || SelectedBook(catalog, page).None? || |page.chapters| == 0 then
      SubmitResult(db, page, Skipped)
    else
      var u := profile.value.id;
      var book := SelectedBook(catalog, page).value;
      var keys := BuildLogs(u, book.name, page.chapters);
      BuildLogsKeys(u, book.name, page.chapters);
      match WritePhase(db, keys, env)
      case Err(code) => SubmitResult(db, page.(isSubmitting := false), Failed(code))
      case Ok(db1) =>
        SubmitResult(SyncScore(db1, u, env.count, env.update), page.(isSubmitting := false), Saved(|page.chapters|))
  }

  /** A submission whose chapters are all stored already adds no row and
      changes no row; with the recount served on a consistent store it
      changes nothing at all. */
  lemma ResubmitAddsNothing(
    db: Db, catalog: seq<Book>, profile: Option<LiffSession.Profile>, page: Page, env: SubmitEnv)
    requires Valid(db)
    requires profile.Some? && SelectedBook(catalog, page).Some? && |page.chapters| > 0
    requires Submitted(profile.value.id, SelectedBook(catalog, page).value.name, page.chapters) <= Keys(db)
    ensures var r := HandleSubmit(db, catalog, profile, page, env);
      && r.db.logs == db.logs && r.db.nextId == db.nextId
      && (Consistent(db, profile.value.id) && env.count.None? && env.update.None? ==> r.db == db)
  {
    var u := profile.value.id;
    var book := SelectedBook(catalog, page).value;
    var keys := BuildLogs(u, book.name, page.chapters);
    BuildLogsKeys(u, book.name, page.chapters);
    WritePhaseResubmit(db, keys, env);
  }

  /** Submitting the same selection again adds no row: the second write
      phase finds every key stored. When both recounts go through, the whole
      store, scores included, is exactly as the first submission left it. */
  lemma SubmitIdempotent(
    db: Db, catalog: seq<Book>, profile: Option<LiffSession.Profile>, page: Page, env1: SubmitEnv, env2: SubmitEnv)
    requires Valid(db)
    requires profile.Some? && SelectedBook(catalog, page).Some? && |page.chapters| > 0
    requires WritePhase(db, BuildLogs(profile.value.id, SelectedBook(catalog, page).value.name, page.chapters), env1).Ok?
    ensures var r1 := HandleSubmit(db, catalog, profile, page, env1);
      var r2 := HandleSubmit(r1.db, catalog, profile, r1.page, env2);
      && r2.outcome != Skipped
      && r2.db.logs == r1.db.logs && r2.db.nextId == r1.db.nextId
      && (env1.count.None? && env1.update.None? && env2.count.None? && env2.update.None? ==> r2.db == r1.db)
  {
    var r1 := HandleSubmit(db, catalog, profile, page, env1);
    assert SelectedBook(catalog, r1.page) == SelectedBook(catalog, page);
    ResubmitAddsNothing(r1.db, catalog, profile, r1.page, env2);
  }
}

=== FILE: seqs.dfy ===
/** Sequence helpers shared by the pages: `Array.prototype.filter` and the
    facts about it that the selection and history lists rely on. */
module Seqs {

  /** The elements of `s` that satisfy `keep`, in their original order. */
  function Filter<T>(keep: T -> bool, s: seq<T>): (r: seq<T>)
    ensures |r| <= |s|
  {
    if |s| == 0 then []
    else if keep(s[0]) then [s[0]] + Filter(keep, s[1..])
    else Filter(keep, s[1..])
  }

  /** Filtering keeps exactly the elements that pass the test: each result
      element comes from `s` and passes, and each passing element of `s`
      is in the result. */
  lemma {:induction false} FilterMembers<T>(keep: T -> bool, s: seq<T>)
    ensures forall i :: 0 <= i < |Filter(keep, s)| ==> Filter(keep, s)[i] in s && keep(Filter(keep, s)[i])
    ensures forall i :: 0 <= i < |s| && keep(s[i]) ==> s[i] in Filter(keep, s)
  {
    if |s| > 0 {
      var t := s[1..];
      FilterMembers(keep, t);
      var r := Filter(keep, s);
      var rt := Filter(keep, t);
      forall i | 0 <= i < |r| ensures r[i] in s && keep(r[i]) {
        if keep(s[0]) && i == 0 {
          assert r[0] == s[0];
        } else {
          var j := if keep(s[0]) then i - 1 else i;
          assert r[i] == rt[j];
          assert rt[j] in t;
        }
      }
      forall i | 0 <= i < |s| && keep(s[i]) ensures s[i] in r {
        if i == 0 {
          assert r[0] == s[0];
        } else {
          assert s[i] == t[i - 1];
          assert s[i] in rt;
        }
      }
    }
  }

  predicate NoDuplicates<T(==)>(s: seq<T>) {
    forall i, j :: 0 <= i < j < |s| ==> s[i] != s[j]
  }

  /** Filtering returns the sequence itself when every element is kept. */
  lemma {:induction false} FilterKeepsAll<T>(keep: T -> bool, s: seq<T>)
    requires forall i :: 0 <= i < |s| ==> keep(s[i])
    ensures Filter(keep, s) == s
  {
    if |s| > 0 {
      FilterKeepsAll(keep, s[1..]);
      assert s == [s[0]] + s[1..];
    }
  }

  /** When the element at `k` is the only one rejected, filtering cuts out
      exactly that position and leaves every other element in place. */
  lemma {:induction false} FilterDropsOne<T>(keep: T -> bool, s: seq<T>, k: nat)
    requires k < |s|
    requires !keep(s[k])
    requires forall i :: 0 <= i < |s| && i != k ==> keep(s[i])
    ensures Filter(keep, s) == s[..k] + s[k + 1..]
  {
    if k == 0 {
      assert Filter(keep, s) == Filter(keep, s[1..]);
      FilterKeepsAll(keep, s[1..]);
      assert s[..0] + s[1..] == s[1..];
    } else {
      var t := s[1..];
      assert Filter(keep, s) == [s[0]] + Filter(keep, t);
      assert forall i :: 0 <= i < |t| && i != k - 1 ==> keep(t[i]) by {
        forall i | 0 <= i < |t| && i != k - 1 ensures keep(t[i]) {
          assert t[i] == s[i + 1];
        }
      }
      FilterDropsOne(keep, t, k - 1);
      assert t[..k - 1] + t[k..] == s[1..k] + s[k + 1..];
      assert [s[0]] + s[1..k] == s[..k];
    }
  }

  /** Filtering a duplicate-free sequence leaves it duplicate-free. */
  lemma {:induction false} FilterNoDuplicates<T>(keep: T -> bool, s: seq<T>)
    requires NoDuplicates(s)
    ensures NoDuplicates(Filter(keep, s))
  {
    if |s| > 0 {
      var t := s[1..];
      assert NoDuplicates(t) by {
        forall i, j | 0 <= i < j < |t| ensures t[i] != t[j] {
          assert t[i] == s[i + 1] && t[j] == s[j + 1];
        }
      }
      FilterNoDuplicates(keep, t);
      FilterMembers(keep, t);
      var tail := Filter(keep, t);
      if keep(s[0]) {
        assert s[0] !in t by {
          forall i | 0 <= i < |t| ensures t[i] != s[0] {
            assert t[i] == s[i + 1];
          }
        }
        var r := [s[0]] + tail;
        forall i, j | 0 <= i < j < |r|
          ensures r[i] != r[j]
        {
          if i == 0 {
            assert r[j] == tail[j - 1];
            assert tail[j - 1] in t;
          } else {
            assert r[i] == tail[i - 1] && r[j] == tail[j - 1];
          }
        }
      }
    }
  }
}

=== FILE: store.dfy ===
/** The hosted store the pages talk to, reduced to the two tables they use:
    `reading_logs` (one row per chapter a user has read, unique on
    user/book/chapter) and `profiles` (one row per user, holding the score
    and the onboarding column).

    Every awaited call takes a `Fault`: `None` means the store served the
    call, `Some(code)` means it answered with that error code and changed
    nothing. Concurrent clients are represented only by the arbitrary
    contents a `Db` may have before a call. */
module Store {
  import opened Options
  import Seqs

  type UserId = string
  type LogId = nat
  type ErrorCode = string
  type Fault = Option<ErrorCode>

  /** Postgres' `unique_violation` SQLSTATE. */
  const UniqueViolation: ErrorCode := "23505"

  /** The unique key of a `reading_logs` row. */
  datatype LogKey = LogKey(user: UserId, book: string, chapter: int)

  /** A `reading_logs` row; its id is the key of the map that holds it. */
  datatype LogRow = LogRow(key: LogKey, createdAt: int)

  datatype ProfileRow = ProfileRow(
    displayName: string,
    avatarUrl: string,
    score: int,
    hasSeenOnboarding: bool)

  datatype Db = Db(
    logs: map<LogId, LogRow>,
    nextId: LogId,
    profiles: map<UserId, ProfileRow>)

  /** A store answer: a value, or the error object's `code`. */
  datatype Reply<T> = Ok(value: T) | Err(code: ErrorCode)

  /** What the store itself guarantees: the unique constraint on
      (user_id, book_name, chapter), and ids drawn from a sequence. */
  ghost predicate Valid(db: Db) {
    && (forall id :: id in db.logs ==> id < db.nextId)
    && (forall i, j :: i in db.logs && j in db.logs && db.logs[i].key == db.logs[j].key ==> i == j)
  }

  /** The keys present in `reading_logs`. */
  function Keys(db: Db): set<LogKey> {
    set id | id in db.logs :: db.logs[id].key
  }

  /** The ids of the rows owned by `u`. */
  function OwnedBy(db: Db, u: UserId): set<LogId> {
    set id | id in db.logs && db.logs[id].key.user == u
  }

  /** The exact row count of `select count(*) where user_id = u`. */
  function Count(db: Db, u: UserId): nat {
    |OwnedBy(db, u)|
  }

  /** The intended invariant: `u` has a profile whose score is its row count. */
  ghost predicate Consistent(db: Db, u: UserId) {
    u in db.profiles && db.profiles[u].score == Count(db, u)
  }

  /** Every row of `db` is still in `db'`, unchanged. */
  ghost predicate KeepsRows(db: Db, db': Db) {
    forall id :: id in db.logs ==> id in db'.logs && db'.logs[id] == db.logs[id]
  }

  function KeySet(keys: seq<LogKey>): set<LogKey> {
    set k | k in keys
  }

  /** Stores one new row under the next id of the sequence. */
  function Append(db: Db, key: LogKey, now: int): (r: Db)
    requires Valid(db)
    requires key !in Keys(db)
    ensures Valid(r)
    ensures Keys(r) == Keys(db) + {key}
    ensures KeepsRows(db, r)
    ensures |r.logs| == |db.logs| + 1
    ensures r.profiles == db.profiles
  {
    var r := db.(logs := db.logs[db.nextId := LogRow(key, now)], nextId := db.nextId + 1);
    assert db.nextId !in db.logs;
    assert Keys(r) == Keys(db) + {key} by {
      assert r.logs[db.nextId].key == key;
      forall k | k in Keys(r) ensures k in Keys(db) + {key} {
        var id :| id in r.logs && r.logs[id].key == k;
        if id != db.nextId {
          assert id in db.logs;
        }
      }
      forall k | k in Keys(db) ensures k in Keys(r) {
        var id :| id in db.logs && db.logs[id].key == k;
        assert id in r.logs && r.logs[id].key == k;
      }
    }
    r
  }

  /** Appending a row for user `v` raises the count of `v` by one and leaves
      every other user's count alone. */
  lemma AppendCount(db: Db, key: LogKey, now: int, u: UserId)
    requires Valid(db)
    requires key !in Keys(db)
    ensures Count(Append(db, key, now), u) == Count(db, u) + (if key.user == u then 1 else 0)
  {
    var r := Append(db, key, now);
    assert r.logs == db.logs[db.nextId := LogRow(key, now)];
    assert db.nextId !in db.logs;
    var added := if key.user == u then {db.nextId} else {};
    assert OwnedBy(r, u) == OwnedBy(db, u) + added by {
      forall id | id in OwnedBy(r, u) ensures id in OwnedBy(db, u) + added {
        if id != db.nextId {
          assert id in db.logs && db.logs[id] == r.logs[id];
        }
      }
      forall id | id in OwnedBy(db, u) ensures id in OwnedBy(r, u) {
        assert id != db.nextId && r.logs[id] == db.logs[id];
      }
    }
    assert OwnedBy(db, u) !! added;
  }

  /** `INSERT ... ON CONFLICT DO NOTHING`: appends, in order, a row for each
      key not already present (a key repeated in the batch lands once). */
  function InsertMissing(db: Db, keys: seq<LogKey>, now: int): (r: Db)
    requires Valid(db)
    ensures Valid(r)
    ensures Keys(r) == Keys(db) + KeySet(keys)
    ensures KeepsRows(db, r)
    ensures r.profiles == db.profiles
    decreases |keys|
  {
    if |keys| == 0 then db
    else
      var db1 := if keys[0] in Keys(db) then db else Append(db, keys[0], now);
      assert KeySet(keys) == {keys[0]} + KeySet(keys[1..]) by {
        assert keys == [keys[0]] + keys[1..];
      }
      InsertMissing(db1, keys[1..], now)
  }

  /** Keys that are all present already leave the store untouched. */
  lemma {:induction false} InsertMissingPresent(db: Db, keys: seq<LogKey>, now: int)
    requires Valid(db)
    requires KeySet(keys) <= Keys(db)
    ensures InsertMissing(db, keys, now) == db
    decreases |keys|
  {
    if |keys| > 0 {
      assert keys[0] in KeySet(keys);
      assert KeySet(keys[1..]) <= KeySet(keys);
      InsertMissingPresent(db, keys[1..], now);
    }
  }

  /** Distinct keys that are all absent each get a row of their own. */
  lemma {:induction false} InsertMissingAbsent(db: Db, keys: seq<LogKey>, now: int)
    requires Valid(db)
    requires Seqs.NoDuplicates(keys)
    requires KeySet(keys) !! Keys(db)
    ensures |InsertMissing(db, keys, now).logs| == |db.logs| + |keys|
    decreases |keys|
  {
    if |keys| > 0 {
      assert keys[0] in KeySet(keys);
      var db1 := Append(db, keys[0], now);
      assert keys[0] !in keys[1..];
      assert KeySet(keys[1..]) !! Keys(db1) by {
        assert KeySet(keys[1..]) <= KeySet(keys);
      }
      assert Seqs.NoDuplicates(keys[1..]) by {
        forall i, j | 0 <= i < j < |keys[1..]| ensures keys[1..][i] != keys[1..][j] {
          assert keys[1..][i] == keys[i + 1] && keys[1..][j] == keys[j + 1];
        }
      }
      InsertMissingAbsent(db1, keys[1..], now);
    }
  }

  /** How many keys of the batch belong to `u`. */
  function BatchCount(keys: seq<LogKey>, u: UserId): nat {
    if |keys| == 0 then 0
    else (if keys[0].user == u then 1 else 0) + BatchCount(keys[1..], u)
  }

  /** Distinct, absent keys raise each user's count by the number of keys
      in the batch that belong to that user. */
  lemma {:induction false} InsertMissingAbsentCount(db: Db, keys: seq<LogKey>, now: int, u: UserId)
    requires Valid(db)
    requires Seqs.NoDuplicates(keys)
    requires KeySet(keys) !! Keys(db)
    ensures Count(InsertMissing(db, keys, now), u) == Count(db, u) + BatchCount(keys, u)
    decreases |keys|
  {
    if |keys| > 0 {
      assert keys[0] in KeySet(keys);
      var db1 := Append(db, keys[0], now);
      AppendCount(db, keys[0], now, u);
      assert keys[0] !in keys[1..];
      assert KeySet(keys[1..]) !! Keys(db1) by {
        assert KeySet(keys[1..]) <= KeySet(keys);
      }
      assert Seqs.NoDuplicates(keys[1..]) by {
        forall i, j | 0 <= i < j < |keys[1..]| ensures keys[1..][i] != keys[1..][j] {
          assert keys[1..][i] == keys[i + 1] && keys[1..][j] == keys[j + 1];
        }
      }
      InsertMissingAbsentCount(db1, keys[1..], now, u);
    }
  }

  /** A plain multi-row `INSERT`: atomic, so it either adds a row for every
      key or, on any unique conflict (with a stored row or within the batch),
      adds none and answers `23505`. */
  function InsertAll(db: Db, keys: seq<LogKey>, now: int, fault: Fault): (r: Reply<Db>)
    requires Valid(db)
    ensures r.Ok? <==> fault.None? && Seqs.NoDuplicates(keys) && KeySet(keys) !! Keys(db)
    ensures r.Err? && fault.None? ==> r.code == UniqueViolation
    ensures r.Ok? ==> Valid(r.value) && KeepsRows(db, r.value) && r.value.profiles == db.profiles
    ensures r.Ok? ==> Keys(r.value) == Keys(db) + KeySet(keys)
    ensures r.Ok? ==> |r.value.logs| == |db.logs| + |keys|
    ensures r.Ok? ==> forall u :: Count(r.value, u) == Count(db, u) + BatchCount(keys, u)
  {
    if fault.Some? then Err(fault.value)
    else if !(Seqs.NoDuplicates(keys) && KeySet(keys) !! Keys(db)) then Err(UniqueViolation)
    else
      InsertMissingAbsent(db, keys, now);
      assert forall u :: Count(InsertMissing(db, keys, now), u) == Count(db, u) + BatchCount(keys, u) by {
        forall u ensures Count(InsertMissing(db, keys, now), u) == Count(db, u) + BatchCount(keys, u) {
          InsertMissingAbsentCount(db, keys, now, u);
        }
      }
      Ok(InsertMissing(db, keys, now))
  }

  /** `upsert(..., { ignoreDuplicates: true })`: conflicting keys are skipped. */
  function UpsertIgnoringDuplicates(db: Db, keys: seq<LogKey>, now: int, fault: Fault): (r: Reply<Db>)
    requires Valid(db)
    ensures r.Ok? <==> fault.None?
    ensures r.Ok? ==> Valid(r.value) && KeepsRows(db, r.value) && r.value.profiles == db.profiles
    ensures r.Ok? ==> Keys(r.value) == Keys(db) + KeySet(keys)
  {
    if fault.Some? then Err(fault.value) else Ok(InsertMissing(db, keys, now))
  }

  /** The distinct (book, chapter) keys `u` has recorded. */
  function UserKeys(db: Db, u: UserId): set<LogKey> {
    set k | k in Keys(db) && k.user == u
  }

  /** The keys of the rows with ids in `ids`. */
  function KeysOf(db: Db, ids: set<LogId>): set<LogKey> {
    set id | id in ids && id in db.logs :: db.logs[id].key
  }

  /** Under the unique key, distinct rows carry distinct keys. */
  lemma {:induction false} KeysOfCard(db: Db, ids: set<LogId>)
    requires Valid(db)
    requires ids <= db.logs.Keys
    ensures |KeysOf(db, ids)| == |ids|
    decreases |ids|
  {
    if ids != {} {
      var x :| x in ids;
      var rest := ids - {x};
      KeysOfCard(db, rest);
      assert KeysOf(db, ids) == KeysOf(db, rest) + {db.logs[x].key};
      assert db.logs[x].key !in KeysOf(db, rest);
    }
  }

  /** Because of the unique key, a user's row count is the number of
      distinct chapters that user has recorded. */
  lemma CountIsDistinctKeys(db: Db, u: UserId)
    ensures Valid(db) ==> Count(db, u) == |UserKeys(db, u)|
  {
    if Valid(db) {
      KeysOfCard(db, OwnedBy(db, u));
      assert KeysOf(db, OwnedBy(db, u)) == UserKeys(db, u);
    }
  }

  /** `select('*', { count: 'exact', head: true }).eq('user_id', u)`. */
  function CountQuery(db: Db, u: UserId, fault: Fault): (r: Reply<nat>)
    ensures r.Ok? <==> fault.None?
    ensures r.Ok? && Valid(db) ==> r.value == |UserKeys(db, u)|
  {
    CountIsDistinctKeys(db, u);
    if fault.Some? then Err(fault.value) else Ok(Count(db, u))
  }

  /** `update({ score }).eq('id', u)`: touches nothing when the call fails
      or no profile row has that id. Callers discard the reply, so only the
      resulting store is returned. */
  function UpdateScore(db: Db, u: UserId, score: int, fault: Fault): (r: Db)
    ensures r.logs == db.logs && r.nextId == db.nextId
    ensures r.profiles.Keys == db.profiles.Keys
    ensures forall v :: v in db.profiles && v != u ==> r.profiles[v] == db.profiles[v]
    ensures u in db.profiles && fault.None? ==> r.profiles[u] == db.profiles[u].(score := score)
    ensures u !in db.profiles || fault.Some? ==> r == db
  {
    if fault.None? && u in db.profiles
    then db.(profiles := db.profiles[u := db.profiles[u].(score := score)])
    else db
  }

  /** Recount-and-overwrite: count the user's rows and, when the count
      arrives, write it as the score. */
  function SyncScore(db: Db, u: UserId, countFault: Fault, updateFault: Fault): (r: Db)
    ensures r.logs == db.logs && r.nextId == db.nextId
    ensures r.profiles.Keys == db.profiles.Keys
    ensures forall v :: v in db.profiles && v != u ==> r.profiles[v] == db.profiles[v]
    ensures u in db.profiles ==> r.profiles[u] == db.profiles[u].(score := r.profiles[u].score)
    ensures countFault.None? && updateFault.None? && u in db.profiles ==> Consistent(r, u)
    ensures countFault.Some? || updateFault.Some? || u !in db.profiles ==> r == db
  {
    match CountQuery(db, u, countFault)
    case Ok(n) => UpdateScore(db, u, n, updateFault)
    case Err(_) => db
  }

  /** `select('score').eq('id', u).single()`: `None` when the call fails or
      there is no such row. */
  function ReadScore(db: Db, u: UserId, fault: Fault): Option<int> {
    if fault.None? && u in db.profiles then Some(db.profiles[u].score) else None
  }

  /** Deleting a row lowers its owner's count by one; deleting an absent id
      lowers nobody's. */
  lemma DeleteCount(db: Db, id: LogId, u: UserId)
    ensures Count(db.(logs := db.logs - {id}), u) ==
            Count(db, u) - (if id in db.logs && db.logs[id].key.user == u then 1 else 0)
  {
    var r := db.(logs := db.logs - {id});
    if id in db.logs && db.logs[id].key.user == u {
      assert OwnedBy(db, u) == OwnedBy(r, u) + {id};
    } else {
      assert OwnedBy(r, u) == OwnedBy(db, u);
    }
  }

  /** `delete().eq('id', id)`: deleting an id that matches no row is not an
      error; the delete is not restricted to the caller's own rows. A
      served delete lowers the count of the row's owner by one and leaves
      every other count, and every count after an absent id, unchanged. */
  function DeleteById(db: Db, id: LogId, fault: Fault): (r: Reply<Db>)
    ensures r.Ok? <==> fault.None?
    ensures r.Ok? ==> r.value.logs == db.logs - {id}
    ensures r.Ok? ==> r.value.nextId == db.nextId && r.value.profiles == db.profiles
    ensures r.Ok? ==>
      forall v :: Count(r.value, v) == Count(db, v) - (if id in db.logs && db.logs[id].key.user == v then 1 else 0)
  {
    var db' := db.(logs := db.logs - {id});
    assert forall v :: Count(db', v) == Count(db, v) - (if id in db.logs && db.logs[id].key.user == v then 1 else 0) by {
      forall v ensures Count(db', v) == Count(db, v) - (if id in db.logs && db.logs[id].key.user == v then 1 else 0) {
        DeleteCount(db, id, v);
      }
    }
    if fault.Some? then Err(fault.value) else Ok(db')
  }

  /** Deleting keeps the unique constraint. */
  lemma DeleteValid(db: Db, id: LogId)
    requires Valid(db)
    ensures Valid(db.(logs := db.logs - {id}))
  {
  }

  /** `upsert({ id, display_name, avatar_url }, { onConflict: 'id' })`: an
      existing row keeps its score and onboarding column; a new row starts
      from the column defaults (score 0, onboarding not seen). */
  function UpsertProfile(db: Db, u: UserId, displayName: string, avatarUrl: string, fault: Fault): (r: Db)
    ensures r.logs == db.logs && r.nextId == db.nextId
    ensures fault.None? ==> r.profiles.Keys == db.profiles.Keys + {u}
    ensures fault.None? ==> r.profiles[u].displayName == displayName && r.profiles[u].avatarUrl == avatarUrl
    ensures fault.None? && u in db.profiles ==>
      r.profiles[u].score == db.profiles[u].score &&
      r.profiles[u].hasSeenOnboarding == db.profiles[u].hasSeenOnboarding
    ensures fault.None? && u !in db.profiles ==> r.profiles[u].score == 0 && !r.profiles[u].hasSeenOnboarding
    ensures forall v :: v in db.profiles && v != u ==> v in r.profiles && r.profiles[v] == db.profiles[v]
    ensures fault.Some? ==> r == db
  {
    if fault.Some? then db
    else if u in db.profiles then
      db.(profiles := db.profiles[u := db.profiles[u].(displayName := displayName, avatarUrl := avatarUrl)])
    else
      db.(profiles := db.profiles[u := ProfileRow(displayName, avatarUrl, 0, false)])
  }

  /** `select('has_seen_onboarding').eq('id', u).single()`, read as the
      truthiness of `data?.has_seen_onboarding`. */
  function ReadOnboarding(db: Db, u: UserId, fault: Fault): bool {
    fault.None? && u in db.profiles && db.profiles[u].hasSeenOnboarding
  }

  /** `update({ has_seen_onboarding: true }).eq('id', u)`. */
  function MarkOnboarded(db: Db, u: UserId, fault: Fault): (r: Db)
    ensures r.logs == db.logs && r.nextId == db.nextId
    ensures r.profiles.Keys == db.profiles.Keys
    ensures forall v :: v in db.profiles && v != u ==> r.profiles[v] == db.profiles[v]
    ensures u in db.profiles && fault.None? ==> r.profiles[u] == db.profiles[u].(hasSeenOnboarding := true)
    ensures u !in db.profiles || fault.Some? ==> r == db
  {
    if fault.None? && u in db.profiles
    then db.(profiles := db.profiles[u := db.profiles[u].(hasSeenOnboarding := true)])
    else db
  }
}
